=== FILE: README.md ===
# Figma UI diff tool: verified model of its core logic

The tool compares a design mock-up with a live user interface in two ways:

- **Pixel comparison.** Two screenshots are uploaded. Both are resized to 800 pixels wide and padded downward to a common height. Then they are diffed pixel by pixel.
- **Style comparison.** The server opens the page in a headless browser and finds one element by CSS selector. It records that element's computed style, form fields and dropdown options as a style snapshot. The frontend compares the snapshot key by key with an expected-styles JSON file that the user uploads.

This project models the sequential logic inside that glue:

- `ImagePadding` (`image_padding.dfy`): the `Png` image as a class over a byte array. `PadImage` allocates a zeroed canvas and copies the source block into it with a loop. `PadToCommonHeight` is the upload handler's step that pads both images to the taller one's height.
- `SelectorText` (`selector_text.dfy`): escaping colons in the selector, and the file-safe name under which the snapshot is saved.
- `StyleSnapshot` (`style_snapshot.dfy`): the normalisation done in the browser-side callback. This covers `trim`, the font-weight aliases and names, the visible input fields and the flattened dropdown options. It also covers assembling the snapshot and the JSON object the frontend receives.
- `JsValues` (`js_values.dfy`): the JSON values the frontend holds, with the parts of JavaScript the comparison relies on: `typeof`, truthiness, property lookup, `for…in` key order and string conversion.
- `StyleComparator` (`style_comparator.dfy`): `compareStyles` and the report it sets, and the `.json` check on the expected-styles file. The component's state is a class, `StylePanel`. Its `CompareStyles` method runs the key loop `CollectMismatches`, which is proved equal to the specification function `Mismatches`.

Two properties of the code are worth stating up front:

- **Comparison is not symmetric.** Only the expected keys are visited, and only expected values that are objects are skipped. So a key that exists only in the expected styles, with a scalar value, is flagged, and with the two sides swapped it is not. `FlaggingDependsOnDirection` exhibits this. `FlaggedSymmetricOnSharedScalars` proves the part that does hold: on a key both sides hold as scalars, the direction does not matter.
- **One error path in the padding step.** Each request handler has a single catch-all. In the modelled padding step the only failure is the exception `PNG.bitblt` throws when the source block does not fit the target, modelled as `None`.

## Model

| member | source | states |
|---|---|---|
| `ImagePadding.Png.constructor` | server.js:38 | a new image has the requested width and height and a fresh buffer of `width*height*4` zero bytes |
| `ImagePadding.Padded` | server.js:38-39 | the padded buffer has exactly `width*targetHeight*4` bytes |
| `ImagePadding.PaddedPixel` | server.js:39 | every pixel (x, y) of the padded image is the source pixel at the same (x, y) on the source's rows, and zero on the added rows; every offset is in range |
| `ImagePadding.PadImage` | server.js:37-41 | succeeds exactly when `targetHeight` is at least the source height (otherwise bitblt throws); the result is a fresh image of the same width and `targetHeight` rows whose buffer is the padded source; the source buffer is unchanged |
| `ImagePadding.TargetHeight` | server.js:64 | the common height is at least both heights and is one of them |
| `ImagePadding.PadToCommonHeight` | server.js:63-66 | both padded images have the common height, keep their widths, are not cropped, use separate fresh buffers, and leave the originals unchanged |
| `SelectorText.EscapeSelector` | server.js:167 | `selector.replace(/:/g, '\\:')`, a backslash before every colon; specified by the escape lemmas below |
| `SelectorText.EscapeSelectorAppend` | server.js:167 | escaping distributes over concatenation, i.e. it is a per-character rewrite |
| `SelectorText.EscapeSelectorLength` | server.js:167 | the escaped selector is longer by exactly the number of colons |
| `SelectorText.EscapeSelectorHead` | server.js:167 | an escaped selector never begins with a bare colon |
| `SelectorText.EscapedColonsArePreceded` | server.js:167 | every colon of the escaped selector is preceded by a backslash |
| `SelectorText.EscapeSelectorWithoutColons` | server.js:167 | a selector without colons is unchanged |
| `SelectorText.UnescapeEscape` | server.js:167 | escaping loses nothing: unescaping restores the selector |
| `SelectorText.EscapeVariantPrefix` | server.js:166-167 | a class with one variant prefix, such as `md:mb-4`, gets exactly its one colon escaped (`md\:mb-4`) |
| `SelectorText.FileSafeName` | server.js:249 | every character of the result is in `[A-Za-z0-9_-]`; the length in UTF-16 code units is preserved |
| `SelectorText.FileSafeNameKeepsSafe` | server.js:249 | an already-safe name is unchanged |
| `SelectorText.FileSafeNameIdempotent` | server.js:249 | applying the rewrite twice equals applying it once |
| `SelectorText.FileSafeNamePointwise` | server.js:249 | on BMP characters each safe character stays in place and every other one becomes `_` |
| `SelectorText.SelectorsCanShareAFile` | server.js:249-250 | different selectors (`.nav`, `#nav`) can map to the same file name |
| `SelectorText.StylesFileName` | server.js:250 | the snapshot file name is the safe name followed by `-styles.json`: its first part is `FileSafeName` of the selector, its last 12 characters are `-styles.json` |
| `SelectorText.StylesFileNameStaysInFolder` | server.js:249-250 | the file name has no path separator, and its only dot is the one in `.json` |
| `StyleSnapshot.TrimStart` | server.js:221 | removes exactly a whitespace-only prefix, leaving a suffix that does not start with whitespace |
| `StyleSnapshot.TrimEnd` | server.js:221 | removes exactly a whitespace-only suffix, leaving a prefix that does not end with whitespace |
| `StyleSnapshot.Trim` | server.js:221 | the result is a substring between a whitespace-only prefix and suffix, and neither starts nor ends with whitespace |
| `StyleSnapshot.TrimTrimmed` | server.js:221 | trimming a trimmed string changes nothing |
| `StyleSnapshot.TrimIdempotent` | server.js:200 | trim is idempotent |
| `StyleSnapshot.NormalizeFontWeight` | server.js:203-205 | `normal` becomes `400` and `bold` becomes `700`; the result is never `normal` or `bold`; every other weight passes through unchanged |
| `StyleSnapshot.FontWeightName` | server.js:208-217 | the weight-to-name table; specified by `FontWeightNameDefinedIff` and `FontWeightNameRoundTrip` |
| `StyleSnapshot.FontWeightNameDefinedIff` | server.js:208-217 | a name is given exactly for the nine weights 100, 200, …, 900 |
| `StyleSnapshot.FontWeightNameRoundTrip` | server.js:208-217 | the weight→name table is one-to-one: a name leads back to its weight and vice versa |
| `StyleSnapshot.KeywordWeightsKeepTheirNames` | server.js:203-217 | `normal` and `bold` normalise to the weights whose names they are |
| `StyleSnapshot.FontWeightExamples` | server.js:203-217 | `800` is `extra-bold`; `650` keeps its number and has no name |
| `StyleSnapshot.OrNull` | server.js:193-194 | defaulting a string to null turns only the empty string into null and loses nothing |
| `StyleSnapshot.IsHidden` | server.js:190 | an input is left out exactly when its type is `hidden`; used by `InputFieldsExactlyVisible` |
| `StyleSnapshot.DescribeInput` | server.js:191-196 | one input's entry: its type and value, with an empty name or placeholder as null (`OrNull`); used by `InputFieldsExactlyVisible` |
| `StyleSnapshot.InputFieldToJson` | server.js:191-196 | one entry of `inputFields` as the JSON object the frontend receives: `type`, `name`, `placeholder` and `value` in that order, with a missing name or placeholder as null |
| `StyleSnapshot.FieldOf` | server.js:190-196 | what one input contributes: nothing, or exactly its descriptor |
| `StyleSnapshot.InputFields` | server.js:189-196 | no listed field is hidden, and no listed name or placeholder is the empty string |
| `StyleSnapshot.InputFieldsAppend` | server.js:189-190 | filtering keeps document order |
| `StyleSnapshot.InputFieldsExactlyVisible` | server.js:189-196 | every non-hidden input is described in the list, and every entry describes a non-hidden input |
| `StyleSnapshot.InputFieldsWithoutHidden` | server.js:189-196 | with no hidden inputs, the list describes every input at its own position |
| `StyleSnapshot.TrimAll` | server.js:200 | one label per option, in option order: entry i is option i's text trimmed |
| `StyleSnapshot.DropdownOptions` | server.js:199-201 | the list length is the total number of options, and every label is trimmed |
| `StyleSnapshot.DropdownOptionsOfOneSelect` | server.js:199-201 | a single select contributes exactly `TrimAll` of its labels; with `DropdownOptionsAppend` this fixes the whole list, in document order |
| `StyleSnapshot.DropdownOptionsAppend` | server.js:199-201 | flattening keeps select order |
| `StyleSnapshot.DropdownOptionsListsEveryOption` | server.js:199-201 | every option of every select appears, trimmed, in the flat list |
| `StyleSnapshot.AttributeOrNull` | server.js:222 | an absent or empty attribute becomes null; any other value is kept |
| `StyleSnapshot.ExtractSnapshot` | server.js:184-240 | each field comes from its source: the weight is the computed weight normalised (never `normal` or `bold`) and named by the table; the text is the element's text trimmed; placeholder and style are the attributes with empty or absent ones as null; the input and option lists are `InputFields` and `DropdownOptions` of the element's inputs and selects; tag, width, height and the other computed properties pass through unchanged |
| `StyleSnapshot.SnapshotWeightNamed` | server.js:203-217 | the snapshot has a weight name exactly when the normalised weight is one of 100, …, 900 |
| `StyleSnapshot.SnapshotKeysDistinct` | server.js:219-239 | the 19 keys of the returned object literal are pairwise different |
| `JsValues.ObjectLiteral` | server.js:219-239 | an object literal with distinct keys lists exactly those keys in order, and each key holds the value written beside it |
| `JsValues.ObjectLiteralWellFormed` | server.js:219-239 | such an object literal is a well-formed object: each key once, and exactly those properties |
| `StyleSnapshot.SnapshotToJson` | server.js:219-239 | the JSON object has the 19 snapshot keys in literal order, and the i-th key holds the i-th snapshot value |
| `StyleSnapshot.SnapshotJsonWellFormed` | server.js:219-239 | the snapshot object holds each key once and exactly those properties |
| `StyleSnapshot.SnapshotJsonMember` | server.js:219-239 | looking up the i-th key returns the i-th value |
| `StyleSnapshot.SnapshotJsonInputFields` | server.js:223 | `inputFields` arrives as an array |
| `StyleSnapshot.SnapshotJsonDropdownOptions` | server.js:224 | `dropdownOptions` arrives as an array |
| `StyleSnapshot.SnapshotJsonWeight` | server.js:227 | `fontWeight` arrives as the normalised weight text |
| `StyleSnapshot.SnapshotJsonWeightName` | server.js:228 | `fontWeightName` arrives as the name, or null when there is none |
| `StyleSnapshot.SnapshotJsonPlaceholder` | server.js:222 | a missing or empty placeholder arrives as null; any other arrives as its text |
| `StyleSnapshot.SnapshotJsonStyle` | server.js:238 | a missing or empty inline style arrives as null; any other arrives as its text |
| `JsValues.Truthy` | frontend/src/App.jsx:151 | JavaScript truthiness of a JSON value: only `null`, `false`, `0` and `""` are falsy; decides the alert in `CompareStyles` |
| `JsValues.ForInKeys` | frontend/src/App.jsx:158 | the keys `for…in` visits: an object's keys in order, an array's or string's indices, nothing for other values; specified by `ForInKeysPresent` and `ForInKeysDistinct` |
| `JsValues.Member` | frontend/src/App.jsx:159-161 | `v[key]`: a field, an element, or the `length`, with `None` for `undefined`; `ForInKeysPresent` and `ArrayLengthCompared` are about it |
| `JsValues.Display` | frontend/src/App.jsx:161 | the text a template literal gives a value: arrays joined by commas, objects without their own `toString` as `[object Object]` |
| `JsValues.DisplayMember` | frontend/src/App.jsx:161 | as `Display`, with a missing property shown as `undefined` |
| `JsValues.NatToString` | frontend/src/App.jsx:158 | the canonical decimal text of an array index, as `for…in` names the keys: non-empty, all digits, no leading zero |
| `JsValues.ParseIndex` | frontend/src/App.jsx:159-160 | a key denotes an array index only when it is that index's canonical text |
| `JsValues.Join` | frontend/src/App.jsx:168 | `parts.join(sep)`: the parts with the separator between neighbours; `ReportOfOne` and `ReportIsAllClearIff` are about it |
| `JsValues.TypeOf` | frontend/src/App.jsx:159 | `typeof` is `"object"` exactly for null, arrays and objects |
| `JsValues.ForInKeysPresent` | frontend/src/App.jsx:158-159 | every key `for…in` visits has a value |
| `JsValues.ForInKeysDistinct` | frontend/src/App.jsx:158 | `for…in` never visits a key twice |
| `StyleComparator.Flagged` | frontend/src/App.jsx:159-160 | a key is flagged when the expected value is present and not an object and differs strictly from the actual one; specified against the loop by `MismatchesExact` |
| `StyleComparator.Mismatches` | frontend/src/App.jsx:156-163 | the specification of the key loop: one entry per flagged key in visiting order; characterised by `MismatchesExact` |
| `StyleComparator.CollectMismatches` | frontend/src/App.jsx:156-163 | the key loop returns exactly `Mismatches(expected, actual)` |
| `StyleComparator.DiffsOverKeys` | frontend/src/App.jsx:158-162 | the loop reports exactly the flagged keys, in visiting order |
| `StyleComparator.DiffsOverEntries` | frontend/src/App.jsx:161 | every entry carries the expected and actual values under its key, verbatim |
| `StyleComparator.MismatchesExact` | frontend/src/App.jsx:158-162 | a key is reported iff it is an expected key whose value is a scalar that is not strictly equal to the actual value (a missing key counts); each key once, in order; objects, arrays, null and actual-only keys never reported |
| `StyleComparator.SelfComparisonFindsNothing` | frontend/src/App.jsx:158-166 | comparing styles with themselves gives no mismatch |
| `StyleComparator.StrictEqualityExample` | frontend/src/App.jsx:160 | `"16px"` against `16` is a mismatch |
| `StyleComparator.FlaggingDependsOnDirection` | frontend/src/App.jsx:158 | a key only in the expected styles is flagged; swapped, it is not |
| `StyleComparator.FlaggedSymmetricOnSharedScalars` | frontend/src/App.jsx:160 | on a key both sides hold as scalars, flagging is symmetric |
| `StyleComparator.ArrayLengthCompared` | frontend/src/App.jsx:160 | against an array as the actual styles, an expected `length` is flagged exactly when it differs from the number of elements |
| `StyleComparator.SnapshotNestedFieldsNeverReported` | frontend/src/App.jsx:159 | against a snapshot, its input and option lists and any null weight name, placeholder or style are never reported |
| `StyleComparator.MismatchLine` | frontend/src/App.jsx:161 | each mismatch line begins with the yellow marker |
| `StyleComparator.Lines` | frontend/src/App.jsx:161 | one line per mismatch, in order |
| `StyleComparator.ReportText` | frontend/src/App.jsx:165-169 | the report set after the loop: the all-clear message for no mismatches, otherwise the lines joined by blank lines; specified by `ReportIsAllClearIff` and `ReportOfOne` |
| `StyleComparator.ReportIsAllClearIff` | frontend/src/App.jsx:165-169 | the report is the "No differences found" message exactly when the list is empty |
| `StyleComparator.AllClearIffNothingFlagged` | frontend/src/App.jsx:158-169 | for well-formed expected styles, the report is the all-clear message exactly when no visited key is flagged |
| `StyleComparator.ReportOfOne` | frontend/src/App.jsx:168 | a single mismatch is reported as its line alone |
| `StyleComparator.IsJsonFileName` | frontend/src/App.jsx:133 | `name.endsWith('.json')`; specified by `JsonFileNameIff` |
| `StyleComparator.JsonFileNameIff` | frontend/src/App.jsx:133 | a name is accepted exactly when it is some stem followed by `.json` |
| `StyleComparator.SavedSnapshotFileAccepted` | frontend/src/App.jsx:133 | the file name the server saves a snapshot under is always accepted |
| `StyleComparator.StylePanel.constructor` | frontend/src/App.jsx:17-19 | the expected and actual styles start as null, and the report starts empty; the panel starts with well-formed expected styles |
| `StyleComparator.StylePanel.HandleExpectedJsonUpload` | frontend/src/App.jsx:131-148 | a missing file or a name without `.json` is refused; unparsable content is refused; both leave the expected styles unchanged; otherwise the parsed value becomes the expected styles; the expected styles stay well-formed JSON |
| `StyleComparator.StylePanel.ReceiveSnapshot` | frontend/src/App.jsx:46 | the extracted snapshot, as the JSON object the server sends, becomes the actual styles, which are then truthy; the expected styles and the report are kept |
| `StyleComparator.StylePanel.CompareStyles` | frontend/src/App.jsx:150-170 | if either style object is falsy it alerts and leaves the report unchanged; otherwise the report is the text for `Mismatches`, and it is the all-clear message exactly when no visited key is flagged |

## Left out

- The pixel diff (`pixelmatch`, server.js:72-79) is a library outside this model. It uses a floating-point perceptual colour distance with threshold 0.1. The model stops at two padded images and proves their heights equal. Their widths are equal exactly when the two resized widths are.
- Resizing, PNG decoding and PNG encoding (`sharp` and `PNG.sync`, server.js:57-61 and 81) and the base64 data URI are foreign library code. The resampling is floating-point.
- Browser automation is I/O with timeouts and is left out: launch, navigation, waiting for the selector, `page.$`, the hover-blocking style tag, the element screenshot, closing the browser, and `disableHoverAndCleanup` (server.js:131-181, 242). What the page reports becomes plain input: `ComputedStyle` and `ElementView`.
- Writing the snapshot file and reading the screenshot back (server.js:246-255) are file-system I/O. Only the file's name is modelled.
- The report-generation HTTP call (server.js:88-123), `src/ai.js` and `src/puppeteer.js` are network or browser wrappers. `puppeteer.config.cjs` is configuration.
- HTTP plumbing is left out: Express middleware, CORS, routing, the 400 answer for a missing selector or URL, and the 500 answers.
- React UI code is left out: `handleLiveExtract`, `handleUpload`, `handleDrop`, `exportToPDF` and the JSX. `FileReader` delivers the file's text asynchronously; here its parsed value is an argument of `HandleExpectedJsonUpload`. The alert dialogs become return values.
- Numbers are held as their canonical JavaScript text. Converting a number to text is not modelled, because that text is an input. NaN cannot be represented, and JSON cannot carry it.
- `JsValues.Member` looks up own properties: an object's fields, an array's or string's elements, and its `length`. Inherited properties are not modelled. For the JSON values the comparison sees, every inherited property is a method, such as `toString` or `hasOwnProperty`, or the `__proto__` accessor. Neither a function nor a prototype object is strictly equal to a scalar, so a scalar expected value under such a key is flagged either way. Only the printed actual value differs: the model prints `undefined` where JavaScript prints the function's source text or the prototype's string form.
- A primitive string as the whole expected or actual value is indexed by character here, and its `length` counts characters. JavaScript indexes by UTF-16 code unit, so the two differ only on characters outside the Basic Multilingual Plane. The file-safe name does model code units.
- `for…in` order over an object is taken from the object's key list. JavaScript lists integer-like keys first, in ascending order; that ordering is the parser's job and is not modelled.
- `ImagePadding.Png.constructor`: pngjs allocates no buffer when the width or height is 0. The model allocates an empty one. Decoded images always have positive dimensions.
- `ImagePadding.PadImage`: `PNG.bitblt` copies one row at a time. The model copies the whole source buffer once. Because the two images have the same width, the rows are consecutive in both buffers, and `PaddedPixel` proves the pixel positions agree.
- `StyleComparator.CollectMismatches` collects structured mismatch entries. The source pushes the formatted strings directly. `MismatchLine` renders each entry exactly as the pushed string, for values that hold no object with its own `toString` key, and `CompareStyles` joins those lines.
- `JsValues.Display`: an object with its own `toString` key, such as the result of `JSON.parse('{"toString":"x"}')`, makes the template literal throw a TypeError, and so does an array holding one. `compareStyles` then stops before setting the report. The model renders such an object as `[object Object]` and sets a report. Only an actual value can reach `Display` as an object. The snapshot the server sends holds no such object: its only objects are the four-key input descriptors.

=== FILE: image_padding.dfy ===
/**
 * Geometry of the upload comparison: both screenshots, already resized to a
 * common width, are padded downward to the taller one's height so that the
 * pixel diff sees two buffers of the same size. A padded image is a fresh,
 * zero-filled RGBA buffer into which the original is block-copied at (0,0).
 */
module ImagePadding {
  import opened Wrappers

  newtype byte = x: int | 0 <= x < 256

  /** Bytes per pixel: red, green, blue, alpha. */
  const Channels: nat := 4

  /** A decoded PNG: a row-major RGBA buffer of `width * height` pixels. */
  class Png {
    const width: nat
    const height: nat
    const data: array<byte>

    ghost predicate Valid()
      reads this
    {
      data.Length == width * height * Channels
    }

    /** `new PNG({ width, height })`: a fresh buffer of fully transparent black pixels. */
    constructor (width: nat, height: nat)
      ensures Valid() && this.width == width && this.height == height
      ensures fresh(data) && forall i :: 0 <= i < data.Length ==> data[i] == 0
    {
      this.width := width;
      this.height := height;
      data := new byte[width * height * Channels](_ => 0);
    }
  }

  /** Offset of channel `c` of pixel (x, y) in a row-major RGBA buffer of the given width. */
  function Offset(width: nat, x: nat, y: nat, c: nat): nat {
    (y * width + x) * Channels + c
  }

  /**
   * The buffer of an image of `height` rows padded to `targetHeight` rows:
   * the source bytes followed by zeros for the added rows. With equal widths
   * the source rows are consecutive in both buffers, so this is exactly the
   * result of copying the source block to the origin of a zeroed canvas.
   */
  function Padded(src: seq<byte>, width: nat, height: nat, targetHeight: nat): (r: seq<byte>)
    requires |src| == width * height * Channels && height <= targetHeight
    ensures |r| == width * targetHeight * Channels
  {
    assert width * targetHeight == width * height + width * (targetHeight - height);
    src + seq(width * (targetHeight - height) * Channels, _ => 0)
  }

  /**
   * Padding never moves or crops a pixel: every pixel of a padded image is
   * the source pixel at the same (x, y) on the source's rows, and zero
   * (transparent black) on the added rows below.
   */
  lemma PaddedPixel(src: seq<byte>, width: nat, height: nat, targetHeight: nat, x: nat, y: nat, c: nat)
    requires |src| == width * height * Channels && height <= targetHeight
    requires x < width && y < targetHeight && c < Channels
    ensures Offset(width, x, y, c) < |Padded(src, width, height, targetHeight)|
    ensures y < height ==> Offset(width, x, y, c) < |src|
    ensures Padded(src, width, height, targetHeight)[Offset(width, x, y, c)] ==
      if y < height then src[Offset(width, x, y, c)] else 0
  {
    var off := Offset(width, x, y, c);
    assert off < (y + 1) * width * Channels by {
      assert (y + 1) * width * Channels == (y * width + width) * Channels;
      assert y * width + x < y * width + width;
    }
    assert (y + 1) * width <= targetHeight * width by {
      MulMonotone(y + 1, targetHeight, width);
    }
    if y < height {
      assert (y + 1) * width <= height * width by {
        MulMonotone(y + 1, height, width);
      }
    } else {
      assert height * width <= y * width by {
        MulMonotone(height, y, width);
      }
      assert off >= |src|;
    }
  }

  lemma MulMonotone(a: nat, b: nat, k: nat)
    requires a <= b
    ensures a * k <= b * k
  {
  }

  /**
   * `padImage`: a new image of the same width and `targetHeight` rows holding
   * the source block at the origin and zeros below it. `PNG.bitblt` throws
   * when the block does not fit, which happens exactly when `targetHeight` is
   * below the source's height; `None` stands for that exception. The source
   * buffer is only read.
   */
  method PadImage(png: Png, targetHeight: nat) returns (padded: Option<Png>)
    requires png.Valid()
    ensures padded.Some? <==> png.height <= targetHeight
    ensures padded.Some? ==>
      fresh(padded.value) && fresh(padded.value.data) && padded.value.Valid() &&
      padded.value.width == png.width && padded.value.height == targetHeight &&
      padded.value.data[..] == Padded(png.data[..], png.width, png.height, targetHeight)
    ensures unchanged(png.data)
  {
    if targetHeight < png.height {
      return None;
    }
    var canvas := new Png(png.width, targetHeight);
    var n := png.data.Length;
    assert n <= canvas.data.Length by {
      MulMonotone(png.height, targetHeight, png.width);
      assert png.width * png.height == png.height * png.width;
      assert png.width * targetHeight == targetHeight * png.width;
    }
    var i := 0;
    while i < n
      invariant 0 <= i <= n
      invariant forall k :: 0 <= k < i ==> canvas.data[k] == png.data[k]
      invariant forall k :: n <= k < canvas.data.Length ==> canvas.data[k] == 0
    {
      canvas.data[i] := png.data[i];
      i := i + 1;
    }
    assert canvas.data[..] == Padded(png.data[..], png.width, png.height, targetHeight);
    padded := Some(canvas);
  }

  /** `Math.max(figmaPNG.height, actualPNG.height)`. */
  function TargetHeight(h1: nat, h2: nat): (h: nat)
    ensures h >= h1 && h >= h2
    ensures h == h1 || h == h2
  {
    if h1 >= h2 then h1 else h2
  }

  /**
   * The padding step of the upload handler: both images are padded to the
   * taller one's height. Neither is cropped, so neither padding throws; both
   * results have that height and keep their widths, and so have identical
   * dimensions exactly when the two resized widths agree (the resize step
   * makes both 800 pixels wide).
   */
  method PadToCommonHeight(figma: Png, actual: Png) returns (paddedFigma: Png, paddedActual: Png)
    requires figma.Valid() && actual.Valid()
    ensures fresh(paddedFigma) && fresh(paddedFigma.data) && paddedFigma.Valid()
    ensures fresh(paddedActual) && fresh(paddedActual.data) && paddedActual.Valid()
    ensures paddedFigma.height == paddedActual.height == TargetHeight(figma.height, actual.height)
    ensures paddedFigma.width == figma.width && paddedActual.width == actual.width
    ensures paddedFigma.data[..] == Padded(figma.data[..], figma.width, figma.height, paddedFigma.height)
    ensures paddedActual.data[..] == Padded(actual.data[..], actual.width, actual.height, paddedActual.height)
    ensures paddedFigma.data != paddedActual.data
    ensures unchanged(figma.data) && unchanged(actual.data)
  {
    var targetHeight := TargetHeight(figma.height, actual.height);
    var a := PadImage(figma, targetHeight);
    var b := PadImage(actual, targetHeight);
    paddedFigma, paddedActual := a.value, b.value;
  }
}

=== FILE: js_values.dfy ===
/**
 * JSON values as the frontend holds them: the user's expected-styles file after
 * `JSON.parse`, and the snapshot the server sends back. Only what the style
 * comparison needs of JavaScript is modelled here: `typeof`, truthiness,
 * property lookup, `for…in` key order and string conversion.
 */
module JsValues {
  import opened Wrappers

  /**
   * A JSON value. A number is held as its canonical JavaScript text
   * (Number::toString): for the numbers JSON can carry, two of them are
   * strictly equal exactly when these texts agree (0 and -0 both read "0").
   * An object keeps its own property names in JavaScript's property order
   * beside the map from names to values.
   */
  datatype Value =
    | Str(s: string)
    | Num(text: string)
    | Bool(b: bool)
    | Null
    | Arr(elements: seq<Value>)
    | Obj(keys: seq<string>, fields: map<string, Value>)

  /** Each name occurs once. */
  predicate Distinct(names: seq<string>) {
    forall i, j :: 0 <= i < j < |names| ==> names[i] != names[j]
  }

  lemma DistinctInit(names: seq<string>)
    requires names != [] && Distinct(names)
    ensures Distinct(names[..|names| - 1]) && names[|names| - 1] !in names[..|names| - 1]
  {
  }

  lemma DistinctSnoc(names: seq<string>, name: string)
    requires Distinct(names) && name !in names
    ensures Distinct(names + [name])
  {
  }

  lemma DistinctAppend(a: seq<string>, b: seq<string>)
    requires Distinct(a) && Distinct(b)
    requires forall i, j :: 0 <= i < |a| && 0 <= j < |b| ==> a[i] != b[j]
    ensures Distinct(a + b)
  {
  }

  /** An object's key list names each property once and names exactly its properties. */
  predicate WellFormed(v: Value) {
    match v
    case Obj(keys, fields) =>
      Distinct(keys) &&
      (forall k :: k in keys ==> k in fields) &&
      (forall k :: k in fields ==> k in keys)
    case _ => true
  }

  /**
   * An object literal `{ n0: v0, n1: v1, … }` with distinct property names:
   * it has exactly the properties written, in the order written, each
   * holding the value written beside it.
   */
  function ObjectLiteral(names: seq<string>, values: seq<Value>): (v: Value)
    requires |names| == |values| && Distinct(names)
    ensures v.Obj? && v.keys == names
    ensures forall i :: 0 <= i < |names| ==> names[i] in v.fields && v.fields[names[i]] == values[i]
  {
    Obj(names, map i | 0 <= i < |names| :: names[i] := values[i])
  }

  lemma ObjectLiteralWellFormed(names: seq<string>, values: seq<Value>)
    requires |names| == |values| && Distinct(names)
    ensures WellFormed(ObjectLiteral(names, values))
  {
  }

  /** JavaScript's `typeof`: `null`, arrays and objects all answer "object". */
  function TypeOf(v: Value): (t: string)
    ensures t == "object" <==> v.Null? || v.Arr? || v.Obj?
  {
    match v
    case Str(_) => "string"
    case Num(_) => "number"
    case Bool(_) => "boolean"
    case Null => "object"
    case Arr(_) => "object"
    case Obj(_, _) => "object"
  }

  /** JavaScript truthiness: `null`, `false`, `0` and `""` are falsy. */
  predicate Truthy(v: Value) {
    match v
    case Str(s) => s != ""
    case Num(t) => t != "0"
    case Bool(b) => b
    case Null => false
    case Arr(_) => true
    case Obj(_, _) => true
  }

  function DigitChar(d: nat): char
    requires d < 10
  {
    "0123456789"[d]
  }

  function DigitValue(c: char): nat
  {
    if '0' <= c <= '9' then (c - '0') as nat else 0
  }

  predicate AllDigits(s: string) {
    forall i :: 0 <= i < |s| ==> '0' <= s[i] <= '9'
  }

  /** The decimal text of a natural number, as JavaScript writes an array index. */
  function NatToString(n: nat): (s: string)
    ensures |s| > 0 && AllDigits(s)
    ensures |s| > 1 ==> s[0] != '0'
    decreases n
  {
    if n < 10 then [DigitChar(n)] else NatToString(n / 10) + [DigitChar(n % 10)]
  }

  /** The number a string of decimal digits denotes. */
  function DigitsValue(s: string): nat
    decreases |s|
  {
    if s == [] then 0 else DigitsValue(s[..|s| - 1]) * 10 + DigitValue(s[|s| - 1])
  }

  /**
   * The array index a property name stands for: JavaScript treats a key as an
   * index only when it is the canonical decimal text of that number.
   */
  function ParseIndex(key: string): (r: Option<nat>)
    ensures r.Some? ==> NatToString(r.value) == key
  {
    if key != [] && AllDigits(key) && NatToString(DigitsValue(key)) == key
    then Some(DigitsValue(key)) else None
  }

  lemma {:induction false} DigitsValueOfNatToString(n: nat)
    ensures DigitsValue(NatToString(n)) == n
    decreases n
  {
    if n >= 10 {
      var s := NatToString(n);
      assert s[..|s| - 1] == NatToString(n / 10);
      DigitsValueOfNatToString(n / 10);
    }
  }

  /** Index keys read back as the index they were written from. */
  lemma ParseIndexOfNatToString(n: nat)
    ensures ParseIndex(NatToString(n)) == Some(n)
  {
    DigitsValueOfNatToString(n);
  }

  /** Distinct indices give distinct keys. */
  lemma NatToStringInjective(m: nat, n: nat)
    requires m != n
    ensures NatToString(m) != NatToString(n)
  {
    ParseIndexOfNatToString(m);
    ParseIndexOfNatToString(n);
  }

  /** The keys `for…in` visits on an array or string: "0", "1", … */
  function IndexKeys(n: nat): (keys: seq<string>)
    ensures |keys| == n
    ensures forall i :: 0 <= i < n ==> keys[i] == NatToString(i)
  {
    seq(n, i requires 0 <= i < n => NatToString(i))
  }

  /**
   * The keys `for (const key in v)` visits, in order. A primitive number,
   * boolean or `null` has no enumerable properties (for…in over `null` runs
   * no iteration).
   */
  function ForInKeys(v: Value): seq<string> {
    match v
    case Obj(keys, _) => keys
    case Arr(xs) => IndexKeys(|xs|)
    case Str(s) => IndexKeys(|s|)
    case _ => []
  }

  /**
   * `v[key]`, with `None` for `undefined`. Own properties are looked up: an
   * object's fields, and an array's or string's elements and its
   * non-enumerable `length`. Inherited properties (methods) are not.
   */
  function Member(v: Value, key: string): Option<Value> {
    match v
    case Obj(_, fields) => if key in fields then Some(fields[key]) else None
    case Arr(xs) =>
      var i := ParseIndex(key);
      if i.Some? && i.value < |xs| then Some(xs[i.value])
      else if key == "length" then Some(Num(NatToString(|xs|)))
      else None
    case Str(s) =>
      var i := ParseIndex(key);
      if i.Some? && i.value < |s| then Some(Str([s[i.value]]))
      else if key == "length" then Some(Num(NatToString(|s|)))
      else None
    case _ => None
  }

  /** Every key `for…in` visits names a property that exists. */
  lemma ForInKeysPresent(v: Value, k: string)
    requires WellFormed(v) && k in ForInKeys(v)
    ensures Member(v, k).Some?
  {
    match v
    case Obj(_, _) =>
    case Arr(xs) =>
      var i :| 0 <= i < |xs| && IndexKeys(|xs|)[i] == k;
      ParseIndexOfNatToString(i);
    case Str(s) =>
      var i :| 0 <= i < |s| && IndexKeys(|s|)[i] == k;
      ParseIndexOfNatToString(i);
  }

  /** `for…in` never visits a key twice. */
  lemma ForInKeysDistinct(v: Value)
    requires WellFormed(v)
    ensures forall i, j :: 0 <= i < j < |ForInKeys(v)| ==> ForInKeys(v)[i] != ForInKeys(v)[j]
  {
    forall i, j | 0 <= i < j < |ForInKeys(v)|
      ensures ForInKeys(v)[i] != ForInKeys(v)[j]
    {
      if !v.Obj? {
        NatToStringInjective(i, j);
      }
    }
  }

  function Join(parts: seq<string>, sep: string): string
    decreases |parts|
  {
    if parts == [] then ""
    else if |parts| == 1 then parts[0]
    else parts[0] + sep + Join(parts[1..], sep)
  }

  /** The first character of a join is that of its first part. */
  lemma {:induction false} JoinStartsWithFirst(parts: seq<string>, sep: string)
    requires |parts| > 0 && |parts[0]| > 0
    ensures |Join(parts, sep)| > 0 && Join(parts, sep)[0] == parts[0][0]
  {
  }

  /**
   * String(v), as a template literal `${v}` renders it: arrays join their
   * elements' texts with commas (a `null` element renders empty) and an
   * object without its own `toString` renders as "[object Object]".
   */
  function Display(v: Value): string
    decreases v
  {
    match v
    case Str(s) => s
    case Num(t) => t
    case Bool(b) => if b then "true" else "false"
    case Null => "null"
    case Arr(xs) =>
      Join(seq(|xs|, i requires 0 <= i < |xs| => if xs[i].Null? then "" else Display(xs[i])), ",")
    case Obj(_, _) => "[object Object]"
  }

  /** String(x) for a looked-up property, where a missing one is `undefined`. */
  function DisplayMember(v: Option<Value>): string {
    match v
    case None => "undefined"
    case Some(x) => Display(x)
  }
}

=== FILE: selector_text.dfy ===
/**
 * The two string rewrites the live-element extraction applies to the
 * user's selector: escaping colons before the selector is handed to the
 * browser, and deriving a file-system-safe name for the saved snapshot.
 */
module SelectorText {

  // ---------------------------------------------------------------------
  // Selector escaping: `selector.replace(/:/g, '\\:')`
  // ---------------------------------------------------------------------

  /** What one selector character becomes: a colon gains a backslash. */
  function EscapeChar(c: char): string {
    if c == ':' then "\\:" else [c]
  }

  /**
   * The selector with every colon escaped, so that a utility class such as
   * `md:mb-4` is not read as a pseudo-class by the CSS parser.
   */
  function EscapeSelector(s: string): string
    decreases |s|
  {
    if s == [] then [] else EscapeChar(s[0]) + EscapeSelector(s[1..])
  }

  function CountColons(s: string): nat
    decreases |s|
  {
    if s == [] then 0 else (if s[0] == ':' then 1 else 0) + CountColons(s[1..])
  }

  /** The inverse rewrite: every backslash-colon pair becomes a colon. */
  function UnescapeSelector(s: string): string
    decreases |s|
  {
    if s == [] then []
    else if |s| >= 2 && s[0] == '\\' && s[1] == ':' then ":" + UnescapeSelector(s[2..])
    else [s[0]] + UnescapeSelector(s[1..])
  }

  /** Escaping works character by character: it distributes over concatenation. */
  lemma {:induction false} EscapeSelectorAppend(a: string, b: string)
    ensures EscapeSelector(a + b) == EscapeSelector(a) + EscapeSelector(b)
    decreases |a|
  {
    if a != [] {
      assert (a + b)[1..] == a[1..] + b;
      EscapeSelectorAppend(a[1..], b);
    } else {
      assert a + b == b;
    }
  }

  /** Each colon adds exactly one character; nothing else changes length. */
  lemma {:induction false} EscapeSelectorLength(s: string)
    ensures |EscapeSelector(s)| == |s| + CountColons(s)
    decreases |s|
  {
    if s != [] {
      EscapeSelectorLength(s[1..]);
    }
  }

  /** An escaped selector never starts with a bare colon. */
  lemma EscapeSelectorHead(s: string)
    ensures EscapeSelector(s) == [] || EscapeSelector(s)[0] != ':'
  {
  }

  /** Every colon of the escaped selector is preceded by a backslash. */
  lemma {:induction false} EscapedColonsArePreceded(s: string)
    ensures forall i :: 0 <= i < |EscapeSelector(s)| && EscapeSelector(s)[i] == ':' ==>
      i > 0 && EscapeSelector(s)[i - 1] == '\\'
    decreases |s|
  {
    if s != [] {
      var head, rest := EscapeChar(s[0]), EscapeSelector(s[1..]);
      EscapedColonsArePreceded(s[1..]);
      EscapeSelectorHead(s[1..]);
      assert EscapeSelector(s) == head + rest;
      forall i | 0 <= i < |head + rest| && (head + rest)[i] == ':'
        ensures i > 0 && (head + rest)[i - 1] == '\\'
      {
        if i >= |head| {
          assert (head + rest)[i] == rest[i - |head|];
        }
      }
    }
  }

  /** A selector without colons is used unchanged. */
  lemma {:induction false} EscapeSelectorWithoutColons(s: string)
    requires ':' !in s
    ensures EscapeSelector(s) == s
    decreases |s|
  {
    if s != [] {
      assert ':' !in s[1..] by {
        forall i | 0 <= i < |s[1..]| ensures s[1..][i] != ':' {
          assert s[1..][i] == s[i + 1];
        }
      }
      EscapeSelectorWithoutColons(s[1..]);
      assert s == [s[0]] + s[1..];
    }
  }

  /** Escaping loses nothing: unescaping gives back the selector the user typed. */
  lemma {:induction false} UnescapeEscape(s: string)
    ensures UnescapeSelector(EscapeSelector(s)) == s
    decreases |s|
  {
    if s != [] {
      var rest := EscapeSelector(s[1..]);
      UnescapeEscape(s[1..]);
      EscapeSelectorHead(s[1..]);
      if s[0] == ':' {
        assert EscapeSelector(s) == "\\:" + rest;
        assert ("\\:" + rest)[2..] == rest;
      } else {
        assert EscapeSelector(s) == [s[0]] + rest;
        assert ([s[0]] + rest)[1..] == rest;
      }
      assert s == [s[0]] + s[1..];
    }
  }

  /**
   * A utility class with one variant prefix, such as `md:mb-4`, escapes to
   * the prefix, an escaped colon and the rest (the text `md\:mb-4`).
   */
  lemma EscapeVariantPrefix(prefix: string, rest: string)
    requires ':' !in prefix && ':' !in rest
    ensures EscapeSelector(prefix + [':'] + rest) == prefix + "\\:" + rest
  {
    var colon: string := [':'];
    assert EscapeSelector(colon) == "\\:" by {
      assert colon[0] == ':' && colon[1..] == [];
    }
    EscapeSelectorAppend(prefix + colon, rest);
    EscapeSelectorAppend(prefix, colon);
    EscapeSelectorWithoutColons(prefix);
    EscapeSelectorWithoutColons(rest);
  }

  // ---------------------------------------------------------------------
  // File-safe name: `selector.replace(/[^\w-]/g, '_')`
  // ---------------------------------------------------------------------

  /** Characters the pattern `[\w-]` accepts: ASCII letters, digits, `_` and `-`. */
  predicate IsSafeChar(c: char) {
    ('A' <= c <= 'Z') || ('a' <= c <= 'z') || ('0' <= c <= '9') || c == '_' || c == '-'
  }

  predicate IsSafeName(s: string) {
    forall i :: 0 <= i < |s| ==> IsSafeChar(s[i])
  }

  /** A character outside the Basic Multilingual Plane is two UTF-16 code units. */
  function Utf16Width(c: char): nat {
    if c as int > 0xFFFF then 2 else 1
  }

  /** The length JavaScript reports for a string: its number of UTF-16 code units. */
  function Utf16Length(s: string): nat
    decreases |s|
  {
    if s == [] then 0 else Utf16Width(s[0]) + Utf16Length(s[1..])
  }

  /**
   * What one character becomes. The pattern has no `u` flag, so it matches
   * code units: a character written with two of them gives two underscores.
   */
  function SafePiece(c: char): string {
    if IsSafeChar(c) then [c] else if Utf16Width(c) == 2 then "__" else "_"
  }

  /** The selector with every character outside `[A-Za-z0-9_-]` replaced by `_`. */
  function FileSafeName(s: string): (r: string)
    ensures IsSafeName(r)
    ensures |r| == Utf16Length(s)
    decreases |s|
  {
    if s == [] then [] else SafePiece(s[0]) + FileSafeName(s[1..])
  }

  /** The name of the JSON file the extracted snapshot is saved under. */
  function StylesFileName(selector: string): (name: string)
    ensures |name| == Utf16Length(selector) + 12
    ensures name[..|name| - 12] == FileSafeName(selector)
    ensures name[|name| - 12..] == StylesSuffix
  {
    FileSafeName(selector) + StylesSuffix
  }

  const StylesSuffix: string := "-styles.json"

  /** The suffix holds no path separator and a single dot, the one before `json`. */
  lemma StylesSuffixChars()
    ensures forall j :: 0 <= j < |StylesSuffix| ==>
      StylesSuffix[j] != '/' && StylesSuffix[j] != '\\' && (StylesSuffix[j] == '.' ==> j == 7)
  {
    assert StylesSuffix == ['-', 's', 't', 'y', 'l', 'e', 's', '.', 'j', 's', 'o', 'n'];
  }

  /** A name made only of safe characters is left as it is. */
  lemma {:induction false} FileSafeNameKeepsSafe(s: string)
    requires IsSafeName(s)
    ensures FileSafeName(s) == s
    decreases |s|
  {
    if s != [] {
      assert IsSafeName(s[1..]) by {
        forall i | 0 <= i < |s[1..]| ensures IsSafeChar(s[1..][i]) {
          assert s[1..][i] == s[i + 1];
        }
      }
      FileSafeNameKeepsSafe(s[1..]);
      assert s == [s[0]] + s[1..];
    }
  }

  /** Making a name safe twice is the same as making it safe once. */
  lemma FileSafeNameIdempotent(s: string)
    ensures FileSafeName(FileSafeName(s)) == FileSafeName(s)
  {
    FileSafeNameKeepsSafe(FileSafeName(s));
  }

  predicate IsBmp(s: string) {
    forall i :: 0 <= i < |s| ==> Utf16Width(s[i]) == 1
  }

  /**
   * On characters of the Basic Multilingual Plane the rewrite keeps the
   * length, keeps every safe character where it is, and puts `_` in place
   * of every other one.
   */
  lemma {:induction false} FileSafeNamePointwise(s: string)
    requires IsBmp(s)
    ensures |FileSafeName(s)| == |s|
    ensures forall i :: 0 <= i < |s| ==>
      FileSafeName(s)[i] == if IsSafeChar(s[i]) then s[i] else '_'
    decreases |s|
  {
    if s != [] {
      assert IsBmp(s[1..]) by {
        forall i | 0 <= i < |s[1..]| ensures Utf16Width(s[1..][i]) == 1 {
          assert s[1..][i] == s[i + 1];
        }
      }
      FileSafeNamePointwise(s[1..]);
      var rest := FileSafeName(s[1..]);
      assert |SafePiece(s[0])| == 1;
      assert FileSafeName(s) == SafePiece(s[0]) + rest;
      forall i | 0 <= i < |s|
        ensures FileSafeName(s)[i] == if IsSafeChar(s[i]) then s[i] else '_'
      {
        if i > 0 {
          assert (SafePiece(s[0]) + rest)[i] == rest[i - 1];
          assert s[1..][i - 1] == s[i];
        }
      }
    }
  }

  /**
   * The saved snapshot's file name has no path separator and its only dot
   * is the one of its `.json` extension, so it stays inside the output
   * folder whatever the selector.
   */
  lemma StylesFileNameStaysInFolder(selector: string)
    ensures '/' !in StylesFileName(selector) && '\\' !in StylesFileName(selector)
    ensures forall i :: 0 <= i < |StylesFileName(selector)| && StylesFileName(selector)[i] == '.' ==>
      i == |StylesFileName(selector)| - 5
  {
    var stem := FileSafeName(selector);
    var name := StylesFileName(selector);
    assert name == stem + StylesSuffix;
    StylesSuffixChars();
    forall i | 0 <= i < |name|
      ensures name[i] != '/' && name[i] != '\\'
      ensures name[i] == '.' ==> i == |name| - 5
    {
      if i < |stem| {
        assert name[i] == stem[i];
      } else {
        assert name[i] == StylesSuffix[i - |stem|];
      }
    }
  }

  /**
   * The rewrite is not one-to-one: a class selector and an id selector with
   * the same name are saved under the same file, the later overwriting the
   * earlier.
   */
  lemma SelectorsCanShareAFile()
    ensures ".nav" != "#nav" && FileSafeName(".nav") == FileSafeName("#nav") == "_nav"
  {
    FileSafeNameKeepsSafe("nav");
    assert ".nav"[1..] == "nav" && "#nav"[1..] == "nav";
  }
}

=== FILE: style_comparator.dfy ===
/**
 * The frontend's shallow style comparison: the expected-styles file the user
 * uploads is checked key by key against the snapshot extracted from the live
 * page, and the mismatches become a text report.
 */
module StyleComparator {
  import opened Wrappers
  import opened JsValues
  import SelectorText
  import StyleSnapshot

  /** One reported difference: the key and both values, verbatim (`None` is `undefined`). */
  datatype Mismatch = Mismatch(key: string, expected: Value, actual: Option<Value>)

  /** A value the comparison looks at: anything whose `typeof` is not "object". */
  predicate IsScalar(v: Value) {
    TypeOf(v) != "object"
  }

  /**
   * Whether the loop reports `key`: the expected value is a scalar and is not
   * strictly equal to the actual one. For a scalar, strict equality is
   * equality of the values, type included, and a missing actual key is
   * `undefined`, which equals no scalar.
   */
  predicate Flagged(expected: Value, actual: Value, key: string) {
    Member(expected, key).Some? && IsScalar(Member(expected, key).value) &&
    Member(expected, key) != Member(actual, key)
  }

  /** What one iteration of the loop pushes for `key`. */
  function EntryFor(expected: Value, actual: Value, key: string): seq<Mismatch> {
    if Flagged(expected, actual, key)
    then [Mismatch(key, Member(expected, key).value, Member(actual, key))]
    else []
  }

  /** The entries pushed after the loop has visited `keys`, in that order. */
  function DiffsOver(keys: seq<string>, expected: Value, actual: Value): seq<Mismatch>
    decreases |keys|
  {
    if keys == [] then []
    else DiffsOver(keys[..|keys| - 1], expected, actual) + EntryFor(expected, actual, keys[|keys| - 1])
  }

  /** One more visited key adds its entry at the end. */
  lemma DiffsOverStep(keys: seq<string>, i: nat, expected: Value, actual: Value)
    requires i < |keys|
    ensures DiffsOver(keys[..i + 1], expected, actual) ==
      DiffsOver(keys[..i], expected, actual) + EntryFor(expected, actual, keys[i])
  {
    assert keys[..i + 1][..i] == keys[..i];
  }

  /** The `diffs` list `compareStyles` builds: one pass over the expected keys. */
  function Mismatches(expected: Value, actual: Value): seq<Mismatch> {
    DiffsOver(ForInKeys(expected), expected, actual)
  }

  /**
   * The `for…in` loop of `compareStyles`: object-typed expected values are
   * skipped, and every other one that is not strictly equal to the actual
   * value is recorded.
   */
  method CollectMismatches(expected: Value, actual: Value) returns (diffs: seq<Mismatch>)
    ensures diffs == Mismatches(expected, actual)
  {
    var keys := ForInKeys(expected);
    diffs := [];
    for i := 0 to |keys|
      invariant diffs == DiffsOver(keys[..i], expected, actual)
    {
      var key := keys[i];
      DiffsOverStep(keys, i, expected, actual);
      var e := Member(expected, key);
      // A key `for…in` visits always has a value; `None` only stands for a
      // key missing from a malformed object, which JavaScript cannot build.
      if e.None? || TypeOf(e.value) == "object" {
        continue;
      }
      var a := Member(actual, key);
      if e != a {
        diffs := diffs + [Mismatch(key, e.value, a)];
      }
    }
    assert keys[..|keys|] == keys;
  }

  // ---------------------------------------------------------------------
  // What the mismatch list is
  // ---------------------------------------------------------------------

  /** The reference answer: the visited keys that are flagged, in visiting order. */
  function FlaggedKeys(keys: seq<string>, expected: Value, actual: Value): seq<string>
    decreases |keys|
  {
    if keys == [] then []
    else
      var last := keys[|keys| - 1];
      FlaggedKeys(keys[..|keys| - 1], expected, actual) + (if Flagged(expected, actual, last) then [last] else [])
  }

  function KeysOf(diffs: seq<Mismatch>): (keys: seq<string>)
    ensures |keys| == |diffs|
    ensures forall i :: 0 <= i < |diffs| ==> keys[i] == diffs[i].key
  {
    seq(|diffs|, i requires 0 <= i < |diffs| => diffs[i].key)
  }

  /** The loop reports exactly the flagged keys, in the order it visits them. */
  lemma {:induction false} DiffsOverKeys(keys: seq<string>, expected: Value, actual: Value)
    ensures KeysOf(DiffsOver(keys, expected, actual)) == FlaggedKeys(keys, expected, actual)
    decreases |keys|
  {
    if keys != [] {
      var init, last := keys[..|keys| - 1], keys[|keys| - 1];
      DiffsOverKeys(init, expected, actual);
      var before, entry := DiffsOver(init, expected, actual), EntryFor(expected, actual, last);
      assert KeysOf(entry) == (if Flagged(expected, actual, last) then [last] else []);
      assert KeysOf(before + entry) == KeysOf(before) + KeysOf(entry);
    }
  }

  /** Every entry carries the expected and the actual value under its key, as they are. */
  lemma {:induction false} DiffsOverEntries(keys: seq<string>, expected: Value, actual: Value)
    ensures forall m :: m in DiffsOver(keys, expected, actual) ==>
      Member(expected, m.key) == Some(m.expected) && m.actual == Member(actual, m.key)
    decreases |keys|
  {
    if keys != [] {
      DiffsOverEntries(keys[..|keys| - 1], expected, actual);
    }
  }

  lemma {:induction false} FlaggedKeysMembers(keys: seq<string>, expected: Value, actual: Value, k: string)
    ensures k in FlaggedKeys(keys, expected, actual) <==> k in keys && Flagged(expected, actual, k)
    decreases |keys|
  {
    if keys != [] {
      var init := keys[..|keys| - 1];
      FlaggedKeysMembers(init, expected, actual, k);
      assert keys == init + [keys[|keys| - 1]];
    }
  }

  lemma {:induction false} FlaggedKeysDistinct(keys: seq<string>, expected: Value, actual: Value)
    requires Distinct(keys)
    ensures Distinct(FlaggedKeys(keys, expected, actual))
    decreases |keys|
  {
    if keys != [] {
      var init, last := keys[..|keys| - 1], keys[|keys| - 1];
      DistinctInit(keys);
      FlaggedKeysDistinct(init, expected, actual);
      var rest := FlaggedKeys(init, expected, actual);
      if Flagged(expected, actual, last) {
        FlaggedKeysMembers(init, expected, actual, last);
        DistinctSnoc(rest, last);
      } else {
        assert rest + [] == rest;
      }
    }
  }

  /**
   * The mismatch list is exactly right. A key is reported if and only if the
   * loop visits it in the expected styles and its expected value is a scalar
   * not strictly equal to the actual one (a key missing from the actual
   * styles is `undefined` and so is reported). Nested objects, arrays and
   * `null` are never reported, nor are keys found only in the actual styles.
   * Each reported key occurs once, in visiting order, with both values as
   * they are.
   */
  lemma MismatchesExact(expected: Value, actual: Value)
    requires WellFormed(expected)
    ensures KeysOf(Mismatches(expected, actual)) == FlaggedKeys(ForInKeys(expected), expected, actual)
    ensures forall k :: k in KeysOf(Mismatches(expected, actual)) <==>
      k in ForInKeys(expected) && Flagged(expected, actual, k)
    ensures forall i, j :: 0 <= i < j < |Mismatches(expected, actual)| ==>
      Mismatches(expected, actual)[i].key != Mismatches(expected, actual)[j].key
    ensures forall m :: m in Mismatches(expected, actual) ==>
      Member(expected, m.key) == Some(m.expected) && m.actual == Member(actual, m.key) &&
      TypeOf(m.expected) != "object" && Some(m.expected) != m.actual
  {
    var keys := ForInKeys(expected);
    var ds := Mismatches(expected, actual);
    DiffsOverKeys(keys, expected, actual);
    DiffsOverEntries(keys, expected, actual);
    ForInKeysDistinct(expected);
    FlaggedKeysDistinct(keys, expected, actual);
    forall k ensures k in KeysOf(ds) <==> k in keys && Flagged(expected, actual, k) {
      FlaggedKeysMembers(keys, expected, actual, k);
    }
    forall i, j | 0 <= i < j < |ds| ensures ds[i].key != ds[j].key {
      assert KeysOf(ds)[i] == ds[i].key && KeysOf(ds)[j] == ds[j].key;
    }
    forall m | m in ds
      ensures TypeOf(m.expected) != "object" && Some(m.expected) != m.actual
    {
      var i :| 0 <= i < |ds| && ds[i] == m;
      assert KeysOf(ds)[i] == m.key;
      FlaggedKeysMembers(keys, expected, actual, m.key);
    }
  }

  lemma {:induction false} DiffsOverSelf(keys: seq<string>, styles: Value)
    ensures DiffsOver(keys, styles, styles) == []
    decreases |keys|
  {
    if keys != [] {
      DiffsOverSelf(keys[..|keys| - 1], styles);
    }
  }

  /** A style snapshot compared with itself has no differences. */
  lemma SelfComparisonFindsNothing(styles: Value)
    ensures Mismatches(styles, styles) == []
  {
    DiffsOverSelf(ForInKeys(styles), styles);
  }

  /** Type matters: the string "16px" against the number 16 is a mismatch. */
  lemma StrictEqualityExample()
    ensures Mismatches(Obj(["fontSize"], map["fontSize" := Str("16px")]),
                       Obj(["fontSize"], map["fontSize" := Num("16")])) ==
      [Mismatch("fontSize", Str("16px"), Some(Num("16")))]
  {
    var keys := ["fontSize"];
    assert keys[..0] == [];
  }

  /**
   * Flagging is not symmetric: a key present only in the expected styles is
   * flagged; with the two sides swapped it is not.
   */
  lemma FlaggingDependsOnDirection()
    ensures Mismatches(Obj(["color"], map["color" := Str("red")]), Obj([], map[])) != []
    ensures Mismatches(Obj([], map[]), Obj(["color"], map["color" := Str("red")])) == []
  {
    var keys := ["color"];
    assert keys[..0] == [];
  }

  /** On a key both sides hold as scalars, flagging does not depend on direction. */
  lemma FlaggedSymmetricOnSharedScalars(expected: Value, actual: Value, key: string)
    requires Member(expected, key).Some? && IsScalar(Member(expected, key).value)
    requires Member(actual, key).Some? && IsScalar(Member(actual, key).value)
    ensures Flagged(expected, actual, key) <==> Flagged(actual, expected, key)
  {
  }

  /**
   * An array's `length` is one of its own properties: an expected `length`
   * equal to the number of elements of an array taken as the actual styles
   * is not flagged, and any other expected `length` is.
   */
  lemma ArrayLengthCompared(xs: seq<Value>, n: nat)
    ensures Flagged(Obj(["length"], map["length" := Num(NatToString(n))]), Arr(xs), "length") <==> n != |xs|
  {
    assert !AllDigits("length") by {
      assert "length"[0] == 'l';
    }
    if n != |xs| {
      NatToStringInjective(n, |xs|);
    }
  }

  /**
   * Against a snapshot taken as the expected styles, its input and option
   * lists are never reported, and neither is a weight name, placeholder or
   * inline style that is `null`.
   */
  lemma SnapshotNestedFieldsNeverReported(s: StyleSnapshot.Snapshot, actual: Value)
    ensures var ks := KeysOf(Mismatches(StyleSnapshot.SnapshotToJson(s), actual));
      "inputFields" !in ks && "dropdownOptions" !in ks &&
      (s.fontWeightName.None? ==> "fontWeightName" !in ks) &&
      (s.placeholder.None? ==> "placeholder" !in ks) &&
      (s.style.None? ==> "style" !in ks)
  {
    var v := StyleSnapshot.SnapshotToJson(s);
    StyleSnapshot.SnapshotJsonWellFormed(s);
    MismatchesExact(v, actual);
    StyleSnapshot.SnapshotJsonInputFields(s);
    StyleSnapshot.SnapshotJsonDropdownOptions(s);
    StyleSnapshot.SnapshotJsonWeightName(s);
    StyleSnapshot.SnapshotJsonPlaceholder(s);
    StyleSnapshot.SnapshotJsonStyle(s);
  }

  // ---------------------------------------------------------------------
  // The report
  // ---------------------------------------------------------------------

  const NoDifferencesReport: string := "\U{2705}" + " No differences found. UI matches expected styles."

  /** The line pushed for one mismatch; the values are rendered as a template literal renders them. */
  function MismatchLine(m: Mismatch): (line: string)
    ensures |line| > 0 && line[0] == '\U{1F7E1}'
  {
    "\U{1F7E1} " + m.key + " mismatch:\n   \U{27A4} Expected: " + Display(m.expected) +
    "\n   \U{27A4} Actual: " + DisplayMember(m.actual)
  }

  function Lines(diffs: seq<Mismatch>): (lines: seq<string>)
    ensures |lines| == |diffs|
    ensures forall i :: 0 <= i < |diffs| ==> lines[i] == MismatchLine(diffs[i])
  {
    seq(|diffs|, i requires 0 <= i < |diffs| => MismatchLine(diffs[i]))
  }

  /** The report: the fixed all-clear message, or the mismatch lines separated by blank lines. */
  function ReportText(diffs: seq<Mismatch>): string {
    if diffs == [] then NoDifferencesReport else Join(Lines(diffs), "\n\n")
  }

  /** The report gives the all-clear message exactly when nothing mismatched. */
  lemma ReportIsAllClearIff(diffs: seq<Mismatch>)
    ensures ReportText(diffs) == NoDifferencesReport <==> diffs == []
  {
    if diffs != [] {
      JoinStartsWithFirst(Lines(diffs), "\n\n");
      assert ReportText(diffs)[0] == '\U{1F7E1}';
      assert NoDifferencesReport[0] == '\U{2705}';
    }
  }

  /** A single mismatch is reported as its line alone. */
  lemma ReportOfOne(m: Mismatch)
    ensures ReportText([m]) == MismatchLine(m)
  {
  }

  // ---------------------------------------------------------------------
  // The expected-styles file name
  // ---------------------------------------------------------------------

  /** `name.endsWith('.json')`. */
  predicate IsJsonFileName(name: string) {
    |name| >= 5 && name[|name| - 5..] == ".json"
  }

  /** A name is accepted exactly when it is some stem followed by `.json`. */
  lemma JsonFileNameIff(name: string)
    ensures IsJsonFileName(name) <==> exists stem :: name == stem + ".json"
  {
    if IsJsonFileName(name) {
      assert name == name[..|name| - 5] + ".json";
    }
    if exists stem :: name == stem + ".json" {
      var stem :| name == stem + ".json";
      assert name[|name| - 5..] == ".json";
    }
  }

  /**
   * For well-formed expected styles, the report gives the all-clear message
   * exactly when no key the loop visits is flagged.
   */
  lemma AllClearIffNothingFlagged(expected: Value, actual: Value)
    requires WellFormed(expected)
    ensures ReportText(Mismatches(expected, actual)) == NoDifferencesReport <==>
      forall k :: k in ForInKeys(expected) ==> !Flagged(expected, actual, k)
  {
    var ds := Mismatches(expected, actual);
    MismatchesExact(expected, actual);
    ReportIsAllClearIff(ds);
    if ds != [] {
      assert ds[0].key in KeysOf(ds);
    }
  }

  /** The snapshot file the server saves for any selector is a name the upload accepts. */
  lemma SavedSnapshotFileAccepted(selector: string)
    ensures IsJsonFileName(SelectorText.StylesFileName(selector))
  {
    var name := SelectorText.StylesFileName(selector);
    assert name == SelectorText.FileSafeName(selector) + "-styles" + ".json";
    JsonFileNameIff(name);
  }

  // ---------------------------------------------------------------------
  // The component state the two handlers work on
  // ---------------------------------------------------------------------

  /** What `handleExpectedJsonUpload` ends with: an alert for either reason, or the loaded styles. */
  datatype UploadOutcome = NotAJsonFile | InvalidJson | Loaded

  /** The comparison panel's state: both style objects and the report shown. */
  class StylePanel {
    var expectedStyles: Value
    var computedStyles: Value
    var styleDiffReport: string

    /**
     * The expected styles are a well-formed JSON value, as `JSON.parse` builds
     * one, so `MismatchesExact` describes every report the panel shows.
     */
    predicate Valid()
      reads this
    {
      WellFormed(expectedStyles)
    }

    /** All three start as the initial state values: `null`, `null` and the empty report. */
    constructor ()
      ensures expectedStyles == Null && computedStyles == Null && styleDiffReport == ""
      ensures Valid()
    {
      expectedStyles, computedStyles, styleDiffReport := Null, Null, "";
    }

    /**
     * `handleExpectedJsonUpload`: a missing file or one whose name does not
     * end in `.json` is refused; otherwise the file's parsed content (`None`
     * when `JSON.parse` throws) becomes the expected styles.
     */
    method HandleExpectedJsonUpload(fileName: Option<string>, parsed: Option<Value>) returns (outcome: UploadOutcome)
      requires Valid()
      requires parsed.Some? ==> WellFormed(parsed.value)
      modifies this`expectedStyles
      ensures Valid()
      ensures (fileName.None? || !IsJsonFileName(fileName.value)) ==>
        outcome == NotAJsonFile && expectedStyles == old(expectedStyles)
      ensures fileName.Some? && IsJsonFileName(fileName.value) && parsed.None? ==>
        outcome == InvalidJson && expectedStyles == old(expectedStyles)
      ensures fileName.Some? && IsJsonFileName(fileName.value) && parsed.Some? ==>
        outcome == Loaded && expectedStyles == parsed.value
    {
      if fileName.None? || !IsJsonFileName(fileName.value) {
        return NotAJsonFile;
      }
      if parsed.None? {
        return InvalidJson;
      }
      expectedStyles := parsed.value;
      outcome := Loaded;
    }

    /**
     * `setComputedStyles` in `handleLiveExtract`: the snapshot the server
     * sends back becomes the actual styles; the rest of the state is kept.
     */
    method ReceiveSnapshot(s: StyleSnapshot.Snapshot)
      requires Valid()
      modifies this`computedStyles
      ensures Valid()
      ensures computedStyles == StyleSnapshot.SnapshotToJson(s)
      ensures Truthy(computedStyles)
    {
      computedStyles := StyleSnapshot.SnapshotToJson(s);
    }

    /**
     * `compareStyles`: when either style object is missing (falsy) it alerts
     * and leaves the report as it was; otherwise the report becomes the text
     * for the mismatches between them.
     */
    method CompareStyles() returns (alerted: bool)
      requires Valid()
      modifies this`styleDiffReport
      ensures Valid()
      ensures alerted <==> !Truthy(expectedStyles) || !Truthy(computedStyles)
      ensures alerted ==> styleDiffReport == old(styleDiffReport)
      ensures !alerted ==> styleDiffReport == ReportText(Mismatches(expectedStyles, computedStyles))
      ensures !alerted ==> (styleDiffReport == NoDifferencesReport <==>
        forall k :: k in ForInKeys(expectedStyles) ==> !Flagged(expectedStyles, computedStyles, k))
    {
      if !Truthy(expectedStyles) || !Truthy(computedStyles) {
        return true;
      }
      AllClearIffNothingFlagged(expectedStyles, computedStyles);
      var diffs := CollectMismatches(expectedStyles, computedStyles);
      if |diffs| == 0 {
        styleDiffReport := NoDifferencesReport;
      } else {
        styleDiffReport := Join(Lines(diffs), "\n\n");
      }
      alerted := false;
    }
  }
}

=== FILE: style_snapshot.dfy ===
/**
 * The style snapshot the server computes inside the browser for the element
 * the selector matched. The browser's answers (the computed style, the
 * bounding rectangle, the element's attributes, its `<input>` descendants and
 * the option labels of its `<select>` descendants) are plain inputs here;
 * what remains is the normalisation applied to them.
 */
module StyleSnapshot {
  import opened Wrappers
  import opened JsValues

  // ---------------------------------------------------------------------
  // String.prototype.trim
  // ---------------------------------------------------------------------

  /** JavaScript's WhiteSpace and LineTerminator characters, which `trim` removes. */
  predicate IsJsWhitespace(c: char) {
    c == '\t' || c == '\n' || c == '\U{000B}' || c == '\U{000C}' || c == '\r' ||
    c == ' ' || c == '\U{00A0}' || c == '\U{1680}' || ('\U{2000}' <= c <= '\U{200A}') ||
    c == '\U{2028}' || c == '\U{2029}' || c == '\U{202F}' || c == '\U{205F}' ||
    c == '\U{3000}' || c == '\U{FEFF}'
  }

  predicate AllWhitespace(s: string) {
    forall i :: 0 <= i < |s| ==> IsJsWhitespace(s[i])
  }

  lemma WhitespaceCons(c: char, w: string)
    requires IsJsWhitespace(c) && AllWhitespace(w)
    ensures AllWhitespace([c] + w)
  {
  }

  lemma WhitespaceSnoc(w: string, c: char)
    requires AllWhitespace(w) && IsJsWhitespace(c)
    ensures AllWhitespace(w + [c])
  {
  }

  /** Neither starts nor ends with whitespace. */
  predicate IsTrimmed(s: string) {
    s == [] || (!IsJsWhitespace(s[0]) && !IsJsWhitespace(s[|s| - 1]))
  }

  /** The string without its leading whitespace. */
  function TrimStart(s: string): (r: string)
    ensures |r| <= |s| && r == s[|s| - |r|..]
    ensures AllWhitespace(s[..|s| - |r|])
    ensures r == [] || !IsJsWhitespace(r[0])
    decreases |s|
  {
    if s != [] && IsJsWhitespace(s[0]) then
      var r := TrimStart(s[1..]);
      var n := |s| - |r|;
      assert s[1..][n - 1..] == s[n..];
      assert s[..n] == [s[0]] + s[1..][..n - 1];
      WhitespaceCons(s[0], s[1..][..n - 1]);
      r
    else
      s
  }

  /** The string without its trailing whitespace. */
  function TrimEnd(s: string): (r: string)
    ensures |r| <= |s| && r == s[..|r|]
    ensures AllWhitespace(s[|r|..])
    ensures r == [] || !IsJsWhitespace(r[|r| - 1])
    decreases |s|
  {
    if s != [] && IsJsWhitespace(s[|s| - 1]) then
      var r := TrimEnd(s[..|s| - 1]);
      assert s[..|s| - 1][..|r|] == s[..|r|];
      assert s[|r|..] == s[..|s| - 1][|r|..] + [s[|s| - 1]];
      WhitespaceSnoc(s[..|s| - 1][|r|..], s[|s| - 1]);
      r
    else
      s
  }

  /** `r` is `s` less the first `i` characters and some more at the end, all of them whitespace. */
  predicate PaddedBy(s: string, i: int, r: string) {
    0 <= i <= |s| - |r| && r == s[i..i + |r|] && AllWhitespace(s[..i]) && AllWhitespace(s[i + |r|..])
  }

  /**
   * `s.trim()`: the part of `s` left between a whitespace-only prefix and a
   * whitespace-only suffix, itself neither starting nor ending with whitespace.
   */
  function Trim(s: string): (r: string)
    ensures IsTrimmed(r)
    ensures exists i :: PaddedBy(s, i, r)
  {
    var t := TrimStart(s);
    var r := TrimEnd(t);
    PaddedByBothEnds(s, t, r);
    r
  }

  /** Stripping a whitespace prefix and then a whitespace suffix leaves a padded middle part. */
  lemma PaddedByBothEnds(s: string, t: string, r: string)
    requires |t| <= |s| && t == s[|s| - |t|..] && AllWhitespace(s[..|s| - |t|])
    requires |r| <= |t| && r == t[..|r|] && AllWhitespace(t[|r|..])
    ensures PaddedBy(s, |s| - |t|, r)
    ensures r != [] ==> r[0] == t[0]
  {
    var i := |s| - |t|;
    assert s[i..][..|r|] == s[i..i + |r|];
    assert s[i..][|r|..] == s[i + |r|..];
  }

  /** Trimming a trimmed string changes nothing; in particular `trim` is idempotent. */
  lemma TrimTrimmed(s: string)
    requires IsTrimmed(s)
    ensures Trim(s) == s
  {
  }

  lemma TrimIdempotent(s: string)
    ensures Trim(Trim(s)) == Trim(s)
  {
    TrimTrimmed(Trim(s));
  }

  // ---------------------------------------------------------------------
  // Font weight
  // ---------------------------------------------------------------------

  /** The keywords `normal` and `bold` become the weights 400 and 700; anything else is kept. */
  function NormalizeFontWeight(w: string): (r: string)
    ensures r != "normal" && r != "bold"
    ensures w != "normal" && w != "bold" ==> r == w
    ensures w == "normal" ==> r == "400"
    ensures w == "bold" ==> r == "700"
  {
    if w == "normal" then "400" else if w == "bold" then "700" else w
  }

  /** The readable name of a numeric font weight, `null` for any other value. */
  function FontWeightName(w: string): Option<string> {
    if w == "100" then Some("thin")
    else if w == "200" then Some("extra-light")
    else if w == "300" then Some("light")
    else if w == "400" then Some("normal")
    else if w == "500" then Some("medium")
    else if w == "600" then Some("semi-bold")
    else if w == "700" then Some("bold")
    else if w == "800" then Some("extra-bold")
    else if w == "900" then Some("black")
    else None
  }

  /** The same table read the other way: the weight a name stands for. */
  function WeightOfName(n: string): Option<string> {
    if n == "thin" then Some("100")
    else if n == "extra-light" then Some("200")
    else if n == "light" then Some("300")
    else if n == "normal" then Some("400")
    else if n == "medium" then Some("500")
    else if n == "semi-bold" then Some("600")
    else if n == "bold" then Some("700")
    else if n == "extra-bold" then Some("800")
    else if n == "black" then Some("900")
    else None
  }

  /** The text of the weight `100 * k`. */
  function Hundreds(k: nat): string {
    NatToString(100 * k)
  }

  /** One of the nine weights 100, 200, …, 900. */
  ghost predicate IsHundredsWeight(w: string) {
    exists k :: 1 <= k <= 9 && w == Hundreds(k)
  }

  lemma HundredsText(k: nat)
    requires 1 <= k <= 9
    ensures Hundreds(k) == [DigitChar(k), '0', '0']
  {
    assert 100 * k / 10 == 10 * k && 100 * k % 10 == 0;
    assert NatToString(100 * k) == NatToString(10 * k) + [DigitChar(0)];
    assert 10 * k / 10 == k && 10 * k % 10 == 0;
    assert NatToString(10 * k) == NatToString(k) + [DigitChar(0)];
    assert NatToString(k) == [DigitChar(k)] && DigitChar(0) == '0';
  }

  /** Names are given to exactly the nine weights 100, 200, …, 900. */
  lemma FontWeightNameDefinedIff(w: string)
    ensures FontWeightName(w).Some? <==> IsHundredsWeight(w)
  {
    if FontWeightName(w).Some? {
      var k: nat := if w == "100" then 1 else if w == "200" then 2 else if w == "300" then 3
        else if w == "400" then 4 else if w == "500" then 5 else if w == "600" then 6
        else if w == "700" then 7 else if w == "800" then 8 else 9;
      HundredsText(k);
      assert w == Hundreds(k);
    }
    if IsHundredsWeight(w) {
      var k :| 1 <= k <= 9 && w == Hundreds(k);
      HundredsText(k);
    }
  }

  /** The weight table is one-to-one: a name leads back to its weight and the other way round. */
  lemma FontWeightNameRoundTrip(w: string, n: string)
    ensures FontWeightName(w) == Some(n) <==> WeightOfName(n) == Some(w)
  {
  }

  /** The two keywords normalise to the weights whose names they are. */
  lemma KeywordWeightsKeepTheirNames(w: string)
    requires w == "normal" || w == "bold"
    ensures FontWeightName(NormalizeFontWeight(w)) == Some(w)
  {
  }

  /** `800` is `extra-bold`; a weight off the table, such as `650`, keeps its number and has no name. */
  lemma FontWeightExamples()
    ensures FontWeightName(NormalizeFontWeight("800")) == Some("extra-bold")
    ensures NormalizeFontWeight("650") == "650" && FontWeightName("650") == None
  {
  }

  // ---------------------------------------------------------------------
  // Form fields and dropdown options
  // ---------------------------------------------------------------------

  /** An `<input>` as the browser reports it: its type, name, placeholder and current value. */
  datatype InputElement = InputElement(kind: string, name: string, placeholder: string, value: string)

  /** One entry of the snapshot's `inputFields`. */
  datatype InputField = InputField(kind: string, name: Option<string>, placeholder: Option<string>, value: string)

  /** `s || null` on a string: the empty string becomes `null`. Nothing is lost by it. */
  function OrNull(s: string): (r: Option<string>)
    ensures r.GetOr("") == s
    ensures r != Some("")
  {
    if s == "" then None else Some(s)
  }

  /** The descriptor of one input; `value || ''` leaves a string value as it is. */
  function DescribeInput(input: InputElement): InputField {
    InputField(input.kind, OrNull(input.name), OrNull(input.placeholder), input.value)
  }

  predicate IsHidden(input: InputElement) {
    input.kind == "hidden"
  }

  /** A listed field: not hidden, and no name or placeholder that is the empty string. */
  predicate Listable(f: InputField) {
    f.kind != "hidden" && f.name != Some("") && f.placeholder != Some("")
  }

  /** `inputFields`: the inputs whose type is not `hidden`, in document order, each described. */
  function InputFields(inputs: seq<InputElement>): (r: seq<InputField>)
    ensures |r| <= |inputs|
    ensures forall f :: f in r ==> Listable(f)
    decreases |inputs|
  {
    if inputs == [] then []
    else FieldOf(inputs[0]) + InputFields(inputs[1..])
  }

  /** What one input contributes to `inputFields`: nothing if hidden, else its descriptor. */
  function FieldOf(input: InputElement): (r: seq<InputField>)
    ensures r == [] || r == [DescribeInput(input)]
  {
    if IsHidden(input) then [] else [DescribeInput(input)]
  }

  /** Filtering keeps document order: the fields of two runs of inputs are the fields of each, in turn. */
  lemma {:induction false} InputFieldsAppend(a: seq<InputElement>, b: seq<InputElement>)
    ensures InputFields(a + b) == InputFields(a) + InputFields(b)
    decreases |a|
  {
    if a == [] {
      assert a + b == b;
    } else {
      assert (a + b)[1..] == a[1..] + b;
      InputFieldsAppend(a[1..], b);
    }
  }

  /**
   * Exactly the visible inputs are listed: each input whose type is not
   * `hidden` is described in the list, and each listed field describes such
   * an input.
   */
  lemma {:induction false} InputFieldsExactlyVisible(inputs: seq<InputElement>)
    ensures forall input :: input in inputs && !IsHidden(input) ==> DescribeInput(input) in InputFields(inputs)
    ensures forall f :: f in InputFields(inputs) ==>
      exists input :: input in inputs && !IsHidden(input) && DescribeInput(input) == f
    decreases |inputs|
  {
    if inputs != [] {
      InputFieldsExactlyVisible(inputs[1..]);
      assert inputs == [inputs[0]] + inputs[1..];
      forall f | f in InputFields(inputs)
        ensures exists input :: input in inputs && !IsHidden(input) && DescribeInput(input) == f
      {
        if f !in InputFields(inputs[1..]) {
          assert !IsHidden(inputs[0]) && DescribeInput(inputs[0]) == f;
        }
      }
    }
  }

  /** When no input is hidden, the list describes every input at its own position. */
  lemma {:induction false} InputFieldsWithoutHidden(inputs: seq<InputElement>)
    requires forall i :: 0 <= i < |inputs| ==> !IsHidden(inputs[i])
    ensures |InputFields(inputs)| == |inputs|
    ensures forall i :: 0 <= i < |inputs| ==> InputFields(inputs)[i] == DescribeInput(inputs[i])
    decreases |inputs|
  {
    if inputs != [] {
      InputFieldsWithoutHidden(inputs[1..]);
    }
  }

  /** The labels of one select's options, each trimmed. */
  function TrimAll(labels: seq<string>): (r: seq<string>)
    ensures |r| == |labels|
    ensures forall i :: 0 <= i < |r| ==> IsTrimmed(r[i])
    ensures forall i :: 0 <= i < |r| ==> r[i] == Trim(labels[i])
  {
    seq(|labels|, i requires 0 <= i < |labels| => Trim(labels[i]))
  }

  function OptionCount(selects: seq<seq<string>>): nat
    decreases |selects|
  {
    if selects == [] then 0 else |selects[0]| + OptionCount(selects[1..])
  }

  /**
   * `dropdownOptions`: the trimmed option labels of all selects, one flat
   * list in select order, whichever select each came from.
   */
  function DropdownOptions(selects: seq<seq<string>>): (r: seq<string>)
    ensures |r| == OptionCount(selects)
    ensures forall i :: 0 <= i < |r| ==> IsTrimmed(r[i])
    decreases |selects|
  {
    if selects == [] then [] else TrimAll(selects[0]) + DropdownOptions(selects[1..])
  }

  /** Flattening keeps select order: the options of two runs of selects are those of each, in turn. */
  lemma {:induction false} DropdownOptionsAppend(a: seq<seq<string>>, b: seq<seq<string>>)
    ensures DropdownOptions(a + b) == DropdownOptions(a) + DropdownOptions(b)
    decreases |a|
  {
    if a == [] {
      assert a + b == b;
    } else {
      assert (a + b)[1..] == a[1..] + b;
      DropdownOptionsAppend(a[1..], b);
    }
  }

  /** A single select contributes its own labels, trimmed, in option order. */
  lemma DropdownOptionsOfOneSelect(labels: seq<string>)
    ensures DropdownOptions([labels]) == TrimAll(labels)
  {
    assert [labels][1..] == [];
  }

  /** Each option of each select appears, trimmed, in the flat list. */
  lemma {:induction false} DropdownOptionsListsEveryOption(selects: seq<seq<string>>, j: nat, k: nat)
    requires j < |selects| && k < |selects[j]|
    ensures Trim(selects[j][k]) in DropdownOptions(selects)
    decreases j
  {
    if j > 0 {
      DropdownOptionsListsEveryOption(selects[1..], j - 1, k);
    } else {
      assert TrimAll(selects[0])[k] == Trim(selects[0][k]);
    }
  }

  // ---------------------------------------------------------------------
  // The snapshot
  // ---------------------------------------------------------------------

  /** The resolved values `getComputedStyle` reports for the properties the snapshot keeps. */
  datatype ComputedStyle = ComputedStyle(
    fontFamily: string, fontSize: string, fontWeight: string, color: string,
    backgroundColor: string, padding: string, margin: string, textAlign: string,
    display: string, position: string)

  /**
   * What the browser reports of the matched element. Absent attributes are
   * `None`; the bounding rectangle's sides are numbers, held as their text.
   */
  datatype ElementView = ElementView(
    tagName: string, textContent: string,
    placeholderAttribute: Option<string>, styleAttribute: Option<string>,
    inputs: seq<InputElement>, selectOptions: seq<seq<string>>,
    rectWidth: string, rectHeight: string)

  datatype Snapshot = Snapshot(
    tag: string, textContent: string, placeholder: Option<string>,
    inputFields: seq<InputField>, dropdownOptions: seq<string>,
    fontFamily: string, fontSize: string, fontWeight: string, fontWeightName: Option<string>,
    color: string, backgroundColor: string, padding: string, margin: string,
    textAlign: string, display: string, position: string,
    width: string, height: string, style: Option<string>)

  /** `el.getAttribute(name) || null`: an absent or empty attribute is `null`. */
  function AttributeOrNull(a: Option<string>): (r: Option<string>)
    ensures r.Some? <==> a.Some? && a.value != ""
    ensures r.Some? ==> r == a
  {
    match a
    case None => None
    case Some(s) => OrNull(s)
  }

  /** The object the evaluate callback returns for an element and its computed style. */
  function ExtractSnapshot(el: ElementView, computed: ComputedStyle): (s: Snapshot)
    ensures s.fontWeight != "normal" && s.fontWeight != "bold"
    ensures s.fontWeightName == FontWeightName(s.fontWeight)
    ensures IsTrimmed(s.textContent)
    ensures s.placeholder != Some("") && s.style != Some("")
    ensures forall f :: f in s.inputFields ==> f.kind != "hidden"
    ensures forall i :: 0 <= i < |s.dropdownOptions| ==> IsTrimmed(s.dropdownOptions[i])
    ensures s.fontWeight == NormalizeFontWeight(computed.fontWeight)
    ensures s.textContent == Trim(el.textContent)
    ensures s.placeholder == AttributeOrNull(el.placeholderAttribute)
    ensures s.style == AttributeOrNull(el.styleAttribute)
    ensures s.inputFields == InputFields(el.inputs)
    ensures s.dropdownOptions == DropdownOptions(el.selectOptions)
    ensures s.tag == el.tagName && s.width == el.rectWidth && s.height == el.rectHeight
    ensures s.fontFamily == computed.fontFamily && s.fontSize == computed.fontSize
    ensures s.color == computed.color && s.backgroundColor == computed.backgroundColor
    ensures s.padding == computed.padding && s.margin == computed.margin
    ensures s.textAlign == computed.textAlign && s.display == computed.display
    ensures s.position == computed.position
  {
    var weight := NormalizeFontWeight(computed.fontWeight);
    Snapshot(
      el.tagName, Trim(el.textContent), AttributeOrNull(el.placeholderAttribute),
      InputFields(el.inputs), DropdownOptions(el.selectOptions),
      computed.fontFamily, computed.fontSize, weight, FontWeightName(weight),
      computed.color, computed.backgroundColor, computed.padding, computed.margin,
      computed.textAlign, computed.display, computed.position,
      el.rectWidth, el.rectHeight, AttributeOrNull(el.styleAttribute))
  }

  /** A snapshot's font-weight name is set exactly when its weight is one of 100, 200, …, 900. */
  lemma SnapshotWeightNamed(el: ElementView, computed: ComputedStyle)
    ensures ExtractSnapshot(el, computed).fontWeightName.Some? <==>
      IsHundredsWeight(NormalizeFontWeight(computed.fontWeight))
  {
    FontWeightNameDefinedIff(NormalizeFontWeight(computed.fontWeight));
  }

  // ---------------------------------------------------------------------
  // The snapshot as the JSON object the frontend receives
  // ---------------------------------------------------------------------

  /** The snapshot's property names, in the order the object literal lists them. */
  const SnapshotKeys: seq<string> := [
    "tag", "textContent", "placeholder", "inputFields", "dropdownOptions",
    "fontFamily", "fontSize", "fontWeight", "fontWeightName", "color",
    "backgroundColor", "padding", "margin", "textAlign", "display",
    "position", "width", "height", "style"]

  /** No name is listed twice; each half of the list is checked on its own, then the two against each other. */
  lemma SnapshotKeysDistinct()
    ensures Distinct(SnapshotKeys)
  {
    var front, back := SnapshotKeys[..9], SnapshotKeys[9..];
    FrontKeysDistinct();
    BackKeysDistinct();
    FrontAndBackKeysDisjoint();
    DistinctAppend(front, back);
    assert front + back == SnapshotKeys;
  }

  lemma FrontKeysDistinct()
    ensures Distinct(SnapshotKeys[..9])
  {
  }

  lemma BackKeysDistinct()
    ensures Distinct(SnapshotKeys[9..])
  {
  }

  lemma FrontAndBackKeysDisjoint()
    ensures forall i, j :: 0 <= i < 9 && 0 <= j < 10 ==> SnapshotKeys[..9][i] != SnapshotKeys[9..][j]
  {
  }

  function NullOr(s: Option<string>): Value {
    match s
    case None => Null
    case Some(x) => Str(x)
  }

  function InputFieldToJson(f: InputField): Value {
    Obj(["type", "name", "placeholder", "value"],
        map["type" := Str(f.kind), "name" := NullOr(f.name),
            "placeholder" := NullOr(f.placeholder), "value" := Str(f.value)])
  }

  /** The values the object literal gives its properties, in the order of `SnapshotKeys`. */
  function SnapshotValues(s: Snapshot): (vs: seq<Value>)
    ensures |vs| == |SnapshotKeys|
  {
    [Str(s.tag), Str(s.textContent), NullOr(s.placeholder),
     Arr(seq(|s.inputFields|, i requires 0 <= i < |s.inputFields| => InputFieldToJson(s.inputFields[i]))),
     Arr(seq(|s.dropdownOptions|, i requires 0 <= i < |s.dropdownOptions| => Str(s.dropdownOptions[i]))),
     Str(s.fontFamily), Str(s.fontSize), Str(s.fontWeight), NullOr(s.fontWeightName), Str(s.color),
     Str(s.backgroundColor), Str(s.padding), Str(s.margin), Str(s.textAlign), Str(s.display),
     Str(s.position), Num(s.width), Num(s.height), NullOr(s.style)]
  }

  /** The snapshot serialised as JSON and parsed back on the other side. */
  function SnapshotToJson(s: Snapshot): (v: Value)
    ensures v.Obj? && v.keys == SnapshotKeys
    ensures forall i {:trigger Member(v, SnapshotKeys[i])} :: 0 <= i < |SnapshotKeys| ==>
      Member(v, SnapshotKeys[i]) == Some(SnapshotValues(s)[i])
  {
    SnapshotKeysDistinct();
    ObjectLiteral(SnapshotKeys, SnapshotValues(s))
  }

  /** The object has each of the snapshot's properties once, and no other property. */
  lemma SnapshotJsonWellFormed(s: Snapshot)
    ensures WellFormed(SnapshotToJson(s))
  {
    SnapshotKeysDistinct();
    ObjectLiteralWellFormed(SnapshotKeys, SnapshotValues(s));
  }

  /** The property named `key`, the `i`-th the literal lists, holds the `i`-th value. */
  lemma SnapshotJsonMember(s: Snapshot, i: nat, key: string)
    requires i < |SnapshotKeys| && SnapshotKeys[i] == key
    ensures Member(SnapshotToJson(s), key) == Some(SnapshotValues(s)[i])
  {
  }

  /** In the JSON the comparison sees, a snapshot's form-field list is an array ... */
  lemma SnapshotJsonInputFields(s: Snapshot)
    ensures Member(SnapshotToJson(s), "inputFields").Some? && Member(SnapshotToJson(s), "inputFields").value.Arr?
  {
    SnapshotJsonMember(s, 3, "inputFields");
  }

  /** ... and so is its list of option labels. */
  lemma SnapshotJsonDropdownOptions(s: Snapshot)
    ensures Member(SnapshotToJson(s), "dropdownOptions").Some? && Member(SnapshotToJson(s), "dropdownOptions").value.Arr?
  {
    SnapshotJsonMember(s, 4, "dropdownOptions");
  }

  /** The weight the comparison sees is the normalised one. */
  lemma SnapshotJsonWeight(s: Snapshot)
    ensures Member(SnapshotToJson(s), "fontWeight") == Some(Str(s.fontWeight))
  {
    SnapshotJsonMember(s, 7, "fontWeight");
  }

  /** The weight name is `null` when the weight has none. */
  lemma SnapshotJsonWeightName(s: Snapshot)
    ensures Member(SnapshotToJson(s), "fontWeightName") == Some(NullOr(s.fontWeightName))
  {
    SnapshotJsonMember(s, 8, "fontWeightName");
  }

  /** An absent placeholder attribute is `null` ... */
  lemma SnapshotJsonPlaceholder(s: Snapshot)
    ensures Member(SnapshotToJson(s), "placeholder") == Some(NullOr(s.placeholder))
  {
    SnapshotJsonMember(s, 2, "placeholder");
  }

  /** ... and so is an absent inline style. */
  lemma SnapshotJsonStyle(s: Snapshot)
    ensures Member(SnapshotToJson(s), "style") == Some(NullOr(s.style))
  {
    SnapshotJsonMember(s, 18, "style");
  }
}

=== FILE: wrappers.dfy ===
/** The optional value used wherever the JavaScript code yields `null` or `undefined`. */
module Wrappers {

  datatype Option<+T> = None | Some(value: T) {

    /** The value, or `default` when there is none (JavaScript's `x || default` on strings). */
    function GetOr(default: T): T {
      match this
      case Some(v) => v
      case None => default
    }
  }
}
